=== FILE: README.md ===
# ECE344 thread library, request buffer and warm-ups in Dafny

This project models three pieces of an operating-systems course repository and
proves properties of them.

- **User-level threads** (`threads/thread.c`). The thread table `t_array`, the
  linked-list ready queue and `current_thread` are one immutable state `Sched`.
  `thread_init`, `thread_id`, `thread_create`, `thread_yield`, `thread_exit` and
  `thread_kill` are functions from state to `Outcome`. An `Outcome` is one of:
  - `Returns`: a new state and the returned tid;
  - `Halted`: the last thread exited;
  - `Fault`: the C code would read an empty table slot, or a thread record
    that `free_exited_thread` has just freed.

  A context switch is one atomic step. The target becomes the RUNNING current
  thread, and the caller goes to the tail of the ready queue as READY.
  Module `ReadyQueue` models `insertNode`/`deleteNode` on a sequence of tids.
  Module `ThreadBounds` keeps the three table-index guards exactly as written,
  for the findings below.
- **The web server's request ring buffer**
  (`webserver/os-050/webserver/server_thread.c`). `server_init` sets it up,
  `server_request` is the producer, and one iteration of the `create_worker`
  loop is a consumer get. The ring is `max_requests + 1` slots of which
  `max_requests` are used. `in` and `out` advance modulo `max_requests`, and the
  queued descriptors come back in FIFO order.
- **Warm-up programs.**
  - `warmup/wc.c`: the word-count hash table. This covers the bucket reduction
    of `myHashFunction`, `insertNode`, the table sizing of `wc_init` and its
    strtok loop.
  - `warmup/fact.c`: the recursive 32-bit `factorial` and the range guard in
    `main`.

Files:
- `options.dfy`: `Option`.
- `ready_queue.dfy`: module `ReadyQueue`.
- `threads.dfy`: module `Threads`.
- `thread_bounds.dfy`: module `ThreadBounds`.
- `ring_buffer.dfy`: module `RingBuffer`.
- `word_count.dfy`: module `WordCount`.
- `factorial.dfy`: module `Factorial`.

The repository's `thread.h` is not part of this model. Its constants are taken as:
- `THREAD_MAX_THREADS` = 1024;
- `THREAD_ANY` = -1, `THREAD_SELF` = -2, `THREAD_INVALID` = -3, `THREAD_NONE` = -4,
  `THREAD_NOMORE` = -5, `THREAD_NOMEMORY` = -6, `THREAD_FAILED` = -7.

The `want_tid < -7` test at thread.c:250 agrees with these values.

Three behaviours of the code that a reader of this API may not expect:
- `thread_kill` only sets the victim's `killed` flag. The victim exits at its own
  next `thread_yield`, which checks the caller's flag first.
- `queue_init` puts thread 0 in the ready queue while it runs. So the ready queue
  is not "the READY threads": the running thread, duplicates and stale tids can
  sit in it. `THREAD_ANY` returns `THREAD_NONE` when the caller heads the queue.
- Thread ids are reused lowest-first. An EXITED thread keeps its slot until the
  next `free_exited_thread`.

## Model

| member | source | states |
|---|---|---|
| ReadyQueue.Insert | threads/thread.c:66-81 | the new node is last, after all the old ones in order; the queue's multiset gains exactly the inserted id |
| ReadyQueue.IndexOf | threads/thread.c:87-98 | the scan stops at the first node carrying the id: it carries it and no earlier node does |
| ReadyQueue.Delete | threads/thread.c:83-99 | without the id (including the empty queue) the queue is unchanged; otherwise exactly the first node carrying it is unlinked, the rest keeping their order |
| ReadyQueue.DeleteMultiset | threads/thread.c:83-99 | a delete removes one copy of the id when present and nothing else |
| ReadyQueue.DeleteSubset | threads/thread.c:83-99 | a delete never introduces an id |
| ReadyQueue.DeleteInsert | threads/thread.c:66-99 | deleting an id just inserted (absent before) restores the queue |
| ReadyQueue.DeleteHead | threads/thread.c:83-99 | deleting the head's id drops exactly the head |
| ReadyQueue.DeleteKeepsHead | threads/thread.c:83-99 | deleting an id other than the head leaves the head in front |
| Threads.DeleteKeepsValid | threads/thread.c:83-99 | unlinking a ready node preserves the scheduler invariant |
| Threads.GetNewTid | threads/thread.c:130-140 | THREAD_NOMORE exactly when all 1024 slots are taken; otherwise the lowest free slot |
| Threads.FirstExited | threads/thread.c:143-155 | the lowest EXITED slot, or THREAD_NONE exactly when no slot is EXITED |
| Threads.FreeExited | threads/thread.c:143-156 | reclaims the lowest EXITED thread (slot removed, its first ready node unlinked) and returns its tid; THREAD_NONE and no change when none exited; the invariant is kept |
| Threads.ThreadInit | threads/thread.c:159-183 | thread 0 is the only thread, RUNNING, unkilled, current, and the only ready-queue node |
| Threads.ThreadId | threads/thread.c:187-191 | the returned tid is the one and only RUNNING thread |
| Threads.ThreadCreate | threads/thread.c:194-236 | THREAD_NOMORE iff the table is full; THREAD_NOMEMORY iff there is room but an allocation fails; errors change nothing; success takes the lowest free tid as a READY unkilled thread appended to the ready queue, the running thread unchanged |
| Threads.SwitchTo | threads/thread.c:273-295 | faults iff the target's slot is empty or is the one just reclaimed; otherwise the invariant holds, the target runs and is returned, the caller becomes READY at the queue tail, the lowest EXITED thread is reclaimed and nothing else changes |
| Threads.ThreadExit | threads/thread.c:300-318 | halts iff the ready queue is empty; faults iff its head slot is empty or just reclaimed; otherwise the head runs and its first node leaves, along with the reclaimed thread. The caller is EXITED but keeps its slot, except when the caller itself heads the queue: then it stays RUNNING and current, because the write at line 311 wins |
| Threads.ThreadYield | threads/thread.c:240-298 | a killed caller unlinks itself and exits; THREAD_SELF/own tid returns it; THREAD_ANY returns THREAD_NONE on an empty queue or a caller at the head, else switches to the head; out-of-range, empty or non-READY targets give THREAD_INVALID with no change; a READY target is switched to; the invariant is kept |
| Threads.ThreadKill | threads/thread.c:320-327 | THREAD_INVALID iff out of range, empty or the caller, with no change; otherwise only the target's killed flag is set |
| Threads.InitialHeadIsCaller | threads/thread.c:159-169 | after thread_init, and after creating thread 1, THREAD_ANY finds the caller at the head and returns THREAD_NONE |
| Threads.YieldAnyRotates | threads/thread.c:259-295 | round robin: THREAD_ANY runs the head and the caller moves to the tail, the rest keeping their order |
| Threads.ExitedSlotReclaimedLater | threads/thread.c:143-156 | an exiting thread's slot stays EXITED until the next free_exited_thread, which clears it and returns its tid |
| Threads.ReclaimedTidIsReused | threads/thread.c:130-156 | a reclaimed tid is available again: the next thread_create returns a tid no larger than it |
| Threads.KilledThreadExitsAtItsNextYield | threads/thread.c:242-245 | after kill(t) and a switch to t, t's next yield with any argument makes it EXITED and runs the ready-queue head |
| ThreadBounds.YieldOutOfBoundsAsWritten | threads/thread.c:250-270 | the tids for which line 270 indexes outside t_array are exactly THREAD_MAX_THREADS and -7..-3 |
| ThreadBounds.YieldRejectsOutOfBounds | threads/thread.c:250-271 | with the corrected guard every such tid gets THREAD_INVALID and changes nothing |
| ThreadBounds.KillOutOfBoundsAsWritten | threads/thread.c:321 | the kill guard lets exactly tid == THREAD_MAX_THREADS through to an out-of-bounds read |
| ThreadBounds.ScanOverrunsAsWritten | threads/thread.c:144-147 | with no EXITED thread and the last slot empty, the scan reads every slot up to t_array[THREAD_MAX_THREADS] |
| ThreadBounds.InitScanOverruns | threads/thread.c:144-147 | right after thread_init the scan already reads one past the table |
| RingBuffer.ServerInit | webserver/os-050/webserver/server_thread.c:90-130 | a server is always returned, recording nr_threads, max_requests and max_cache_size as given; the count starts at 0 with in and out at 0; a positive max_requests gives a valid empty ring of max_requests+1 slots, otherwise no buffer |
| RingBuffer.FirstRequest | webserver/os-050/webserver/server_thread.c:90-181 | the first request to a fresh server without workers is served on the spot and leaves the server as initialised; with workers and a buffer it becomes the only queued descriptor and wakes the workers |
| RingBuffer.Enqueue | webserver/os-050/webserver/server_thread.c:166-179 | on a non-full buffer the invariant is kept and the descriptor is appended to the queued contents; workers are woken iff the buffer was empty |
| RingBuffer.ServerRequest | webserver/os-050/webserver/server_thread.c:160-181 | without workers the buffer is untouched and nobody is woken; otherwise the descriptor is appended to the contents |
| RingBuffer.Dequeue | webserver/os-050/webserver/server_thread.c:136-147 | on a non-empty buffer the oldest descriptor is returned and removed, the invariant kept; producers are woken iff the buffer was full |
| RingBuffer.DequeueKeepsValid | webserver/os-050/webserver/server_thread.c:146-147 | advancing out and counting one less keeps in == out + count (mod max_requests) |
| RingBuffer.TakeAllIsContents | webserver/os-050/webserver/server_thread.c:136-147 | repeated gets return the queued descriptors oldest first |
| RingBuffer.PutAllAppends | webserver/os-050/webserver/server_thread.c:166-179 | repeated puts append the batch to the queued contents in order |
| RingBuffer.Fifo | webserver/os-050/webserver/server_thread.c:136-179 | descriptors put into an empty buffer come back from the gets in the order they were put |
| WordCount.TableSize | warmup/wc.c:86-97 | tableSize is even, and at least 2 when the byte where the loop stops (`size`, or 0 for a negative `size`) is not a space |
| WordCount.SkipFrom | warmup/wc.c:109-113 | strtok's skip: the first non-delimiter at or after the start, every byte before it being a delimiter |
| WordCount.RunEnd | warmup/wc.c:109-113 | strtok's scan: the first delimiter at or after the token start, every byte before it being part of the token |
| WordCount.NextToken | warmup/wc.c:109-113 | strtok gives no token iff only delimiters are left; a token is non-empty and delimiter-free, and scanning always makes progress |
| WordCount.NextTokenIsFirstRun | warmup/wc.c:109-113 | the token is exactly the first maximal non-delimiter run after the leading delimiters, and the scan resumes one byte past the delimiter that ends it (at the end when none does) |
| WordCount.NextTokenOfWord | warmup/wc.c:109-113 | after any run of delimiters, a word followed by the end or a delimiter is the next token, and the scan resumes behind that delimiter |
| WordCount.TokensOfUnwords | warmup/wc.c:109-113 | tokenising words joined by spaces gives the same words back |
| WordCount.TokensBound | warmup/wc.c:86-95 | there is at most one token more than there are spaces |
| WordCount.TableSizeCoversTokens | warmup/wc.c:86-97 | the table has at least two buckets and at least two per token |
| WordCount.Bucket | warmup/wc.c:32-34 | for an accumulator other than INT_MIN the bucket is within [0, tableSize) |
| WordCount.BucketOfIntMin | warmup/wc.c:32-34 | INT_MIN survives the sign flip and gives a negative bucket |
| WordCount.Find | warmup/wc.c:51-63 | no node iff no node holds the word; otherwise the first node holding it |
| WordCount.WordsUnique | warmup/wc.c:37-78 | in a valid table no word has two nodes |
| WordCount.InsertIntoChain | warmup/wc.c:40-75 | an existing node counts the word once more, otherwise a new node with occurrence 1 heads an empty chain or is appended; the chain stays valid, the word's count rises by one and no other word moves or changes count |
| WordCount.InsertNode | warmup/wc.c:37-78 | the table invariant is kept; the word's count rises by one; every other word's count and every other bucket is unchanged |
| WordCount.CString | warmup/wc.c:107 | the strdup copy is the prefix of the text before its first NUL: a NUL-free prefix that ends at the text's end or at a NUL |
| WordCount.TokensStopAtNul | warmup/wc.c:107-113 | tokenising the strdup copy of "a\0b" gives the single token "a" |
| WordCount.WcInit | warmup/wc.c:80-117 | the table has as many buckets as tableSize computes from the first `size` bytes, is valid, and every word's occurrence equals its number of appearances among the strtok tokens of the text up to its first NUL |
| Factorial.Factorial | warmup/fact.c:5-9 | the result is a 32-bit int and equals n! for 1 <= n <= 12 |
| Factorial.FactBound | warmup/fact.c:26-30 | 1 <= n! <= 12! for n <= 12 |
| Factorial.FactorialWrapsAt13 | warmup/fact.c:5-9 | at 13 the 32-bit result is no longer 13! |
| Factorial.Classify | warmup/fact.c:16-33 | no argument prints "Huh?"; "Overflow" iff the value is above 12 or at most 0; otherwise the exact n!, which fits in an int |

## Left out

- The ucontext machinery (`getcontext`/`setcontext`, `thread_stub`): a switch
  is one atomic step. The resumed side's second `free_exited_thread` call is
  not modelled.
- `Threads.SwitchTo`: the `initialized` toggle at thread.c:281-284 is not
  modelled, so every switch to a READY target goes through. In the C code the
  flag is flipped on the target. When it flips to false, `thread_yield`
  returns the target's tid without switching. By then the target's node has
  already been unlinked (line 275) and `free_exited_thread` has run.
  `thread_init` sets thread 0's flag to true (line 174), and created threads
  start at false (line 210). So take: init, create thread 1, thread 0 yields
  to 1, then thread 1 yields to 0 or to THREAD_ANY. In C, thread 1 keeps
  running and gets 0; the model runs thread 0. The model lets every switch
  to a READY target go through.
- Interrupt enabling/disabling: the model has no concurrency. The missing
  `interrupts_set` on some return paths has no effect on the bookkeeping.
- `malloc` results in `thread_create`: they are the boolean parameters
  `recordAllocated` and `stackAllocated`. The stack and the register set-up are
  left out.
- `Threads.ThreadCreate`: the node allocation inside `insertNode`
  (thread.c:70) is unchecked. The model takes it to succeed, both in
  `thread_create` (line 230) and in every switch (line 290).
- `Threads.ThreadInit`: `queue_init` never sets the `next` link of thread 0's
  node (thread.c:163-164), and `insertNode` walks that link (line 76). The
  model takes it as NULL, which is what a zero-filled allocation would give.
  The allocations in `thread_init` and `queue_init` are taken to succeed.
- The Lab 3 part of thread.c (wait queues, `thread_sleep`, `thread_wakeup`,
  locks, condition variables). `Status.Blocked` exists but no operation here
  produces it.
- `Threads.ThreadYield`: a killed caller is modelled as exiting, with
  `thread_exit`'s outcome. In C, `thread_exit` never returns to line 245. It
  either calls `exit(0)` or `setcontext`s to a context saved at thread.c:180,
  222 or 277. Where that context resumes is not modelled; see
  `Threads.ThreadExit`.
- `Threads.ThreadExit`: the model records only the bookkeeping of lines
  308-315, not where the `setcontext` at line 317 resumes. This matters when
  the caller heads the ready queue. Any thread 0 that exits before its first
  switch does, because `queue_init` put it there. Take `thread_init`,
  `thread_create` (giving 1), then `thread_exit` in thread 0. In C,
  `ready_id` is 0. Slot 0 is set to EXITED and then RUNNING, its node is
  unlinked, and line 317 resumes the context saved at line 180 inside
  `thread_init`. That runs `queue_init` again, so the ready queue becomes
  `[0]`, thread 1's node is lost, and `thread_init` returns a second time. The
  model ends with thread 0 RUNNING and current and the ready queue `[1]`.
- Server: mutexes, condition waits and `pthread_create` are left out. A put is
  only modelled on a non-full buffer and a get on a non-empty one, which are
  what the waits ensure. The broadcasts are reported as booleans.
- Server: `do_server_request`, the cache (`max_cache_size`), `server_exit` and
  the `exiting` path of `create_worker` are left out. On that path a get can run
  on an empty buffer and take the count to -1.
- `RingBuffer.ServerRequest`: with worker threads, only a server with a buffer
  (`max_requests` > 0) is modelled. With `max_requests` < 0 the buffer is NULL
  (server_thread.c:117-118), the wait at line 168 does not fire, and line 171
  writes through NULL. With `max_requests` == 0 the wait at line 168 never
  ends. The precondition excludes both cases.
- `RingBuffer.ServerInit`: `in` and `out` are taken as 0, as at process start.
  When no size is positive, C skips the block at server_thread.c:99-121 and
  leaves `num_requests` and `request_buffer` unset in the fresh allocation.
  The model gives them 0 and no buffer. The server is still returned, and
  its `nr_threads == 0` path serves requests on the spot.
  A second `server_init` in the same process inherits the globals; that case is
  not modelled. Worker threads are not created.
- `WordCount.Bucket`: the character loop of `myHashFunction` (the `*str++`
  loop at wc.c:30-31, which skips the first character and folds in the
  terminator) is an abstract accumulator `key`. The contract assumes the
  accumulator is never INT_MIN; `BucketOfIntMin` shows what happens if it is.
- `WordCount.InsertNode`: occurrence counts are unbounded integers. The C `int`
  would overflow after 2^31 occurrences of one word.
- `WordCount.WcInit`: `size` must be at most the text's length, and it must
  give at least one bucket. A negative `size` is modelled: the loop is
  skipped, and byte 0 decides between 2 buckets and 0. A `size` that gives `tableSize` 0 makes
  `myHashFunction` divide by zero at wc.c:34. For example, the text "a " with
  size 1 finds no space in its first byte, and byte 1 is a space, so no word
  is added. That division is
  undefined in C and is excluded here. A `size` beyond the text reads past
  the string and is not modelled. The count at wc.c:91 uses `isspace`, while
  the test at line 94 looks only for ' '; the model keeps both tests.
- `wc_output`, `wc_destroy` and wc's `main` are left out: they only print and free.
- `Factorial.Classify`: `Some(v)` stands for an argument from which `strtod`
  reads an integral value `v` within the range of `int`. `None` stands for a
  missing argument or a non-integral value, both of which print "Huh?". Two
  other cases are not modelled. Text that is not a number (say "abc") makes
  `strtod` return 0.0. That passes `isInteger`, so C prints "Overflow". An
  integral value outside `int` (say 3000000000) reaches the undefined cast at
  fact.c:12 and typically prints "Huh?". `Classify(Some(3000000000))` gives
  `Overflow` instead.
- `Factorial.Factorial`: beyond 12 the C multiplication overflows, which C
  leaves undefined. It is modelled as two's-complement wrap-around.
- Other warm-up files (`cpr.c`, `point.c`, `words.c`) are not part of this model.

## Findings

| source | as written | input that shows it | evidently intended | confidence | as-written member | corrected member |
|---|---|---|---|---|---|---|
| threads/thread.c:250-270 | the range test `want_tid < -7 \|\| want_tid > THREAD_MAX_THREADS` lets `t_array[want_tid]` be read for want_tid = THREAD_MAX_THREADS and for -7..-3 | `thread_yield(THREAD_MAX_THREADS)` or `thread_yield(THREAD_INVALID)` | every tid outside 0..THREAD_MAX_THREADS-1 other than ANY/SELF returns THREAD_INVALID | not executed | ThreadBounds.YieldOutOfBoundsAsWritten | ThreadBounds.YieldRejectsOutOfBounds |
| threads/thread.c:321 | `tid > THREAD_MAX_THREADS` lets `t_array[THREAD_MAX_THREADS]` be read | `thread_kill(THREAD_MAX_THREADS)` | `tid >= THREAD_MAX_THREADS` returns THREAD_INVALID | not executed | ThreadBounds.KillOutOfBoundsAsWritten | Threads.ThreadKill |
| threads/thread.c:144-147 | the inner `while (t_array[i] == NULL) i++` has no bound, so with empty trailing slots the scan reads `t_array[THREAD_MAX_THREADS]` and beyond | any `thread_exit` right after `thread_init` | the scan stops at the end of the table and returns THREAD_NONE | not executed | ThreadBounds.InitScanOverruns | Threads.FreeExited |

=== FILE: factorial.dfy ===
/**
 * warmup/fact.c: a recursive factorial over 32-bit `int`, and the integer
 * part of `main`'s classification of its argument.
 */
module Factorial {
  import opened Options

  const IntMin: int := -0x8000_0000
  const IntMax: int := 0x7fff_ffff

  /** The largest factorial below 2^31: 12!. */
  const Fact12: int := 479001600

  /** Two's-complement wrap-around of an integer into the 32-bit range. */
  function Wrap32(x: int): (r: int)
    ensures IntMin <= r <= IntMax
    ensures IntMin <= x <= IntMax ==> r == x
  {
    var m := (x - IntMin) % 0x1_0000_0000;
    m + IntMin
  }

  /** n!, the mathematical reference. */
  function Fact(n: nat): nat {
    if n == 0 then 1 else n * Fact(n - 1)
  }

  /** n! grows with n and stays at most 12! up to 12. */
  lemma {:induction false} FactBound(n: nat)
    requires n <= 12
    ensures 1 <= Fact(n) <= Fact12
    decreases 12 - n
  {
    if n < 12 {
      FactBound(n + 1);
      assert Fact(n + 1) == (n + 1) * Fact(n);
    } else {
      assert Fact(12) == Fact12;
    }
  }

  /**
   * factorial: `n * factorial(n - 1)` down to 1, each product wrapped to 32
   * bits. It only stops for n >= 1. Up to 12 nothing wraps and the result
   * is exactly n!.
   */
  function Factorial(n: int): (r: int)
    requires n >= 1
    ensures IntMin <= r <= IntMax
    ensures n <= 12 ==> r == Fact(n)
    decreases n
  {
    if n == 1 then 1
    else
      var r := Wrap32(n * Factorial(n - 1));
      if n <= 12 then FactBound(n); r else r
  }

  /** At 13 the product wraps: the result is no longer 13!. */
  lemma FactorialWrapsAt13()
    ensures Factorial(13) != Fact(13)
  {
    assert Fact(13) == 13 * Fact12;
    assert Factorial(12) == Fact12;
  }

  /** What `main` prints. */
  datatype Output = Huh | Overflow | Printed(value: int)

  /**
   * main, for an integer argument (`None` when there is none): no argument
   * prints "Huh?", one above 12 or at most 0 prints "Overflow", and only
   * the rest reach factorial.
   */
  function Classify(arg: Option<int>): (r: Output)
    ensures arg.None? <==> r == Huh
    ensures arg.Some? ==> (r == Overflow <==> arg.value > 12 || arg.value <= 0)
    ensures r.Printed? ==>
      && 1 <= arg.value <= 12
      && r.value == Fact(arg.value)
      && 1 <= r.value <= Fact12 <= IntMax
  {
    match arg
    case None => Huh
    case Some(v) =>
      if v > 12 || v <= 0 then Overflow
      else
        FactBound(v);
        Printed(Factorial(v))
  }
}

=== FILE: options.dfy ===
/** An optional value, used where the C code returns NULL or leaves a field unset. */
module Options {

  datatype Option<+T> = None | Some(value: T)
}

=== FILE: ready_queue.dfy ===
/**
 * The scheduler's ready queue (threads/thread.c). In C it is a singly linked
 * list of tids behind a dummy head node; here it is the sequence of tids held
 * by the nodes after the dummy, front first.
 */
module ReadyQueue {

  /** A thread identifier, or one of the negative sentinels of thread.h. */
  type Tid = int

  /** insertNode: link a new node carrying `id` behind the last node. */
  function Insert(q: seq<Tid>, id: Tid): (r: seq<Tid>)
    ensures |r| == |q| + 1
    ensures r[|q|] == id
    ensures r[..|q|] == q
    ensures multiset(r) == multiset(q) + multiset{id}
  {
    q + [id]
  }

  /** Position of the first node carrying `id`. */
  function IndexOf(q: seq<Tid>, id: Tid): (k: nat)
    requires id in q
    ensures k < |q| && q[k] == id
    ensures id !in q[..k]
  {
    if q[0] == id then 0 else 1 + IndexOf(q[1..], id)
  }

  /**
   * deleteNode: unlink the first node carrying `id`. An empty queue or a
   * queue without `id` is left as it is.
   */
  function Delete(q: seq<Tid>, id: Tid): (r: seq<Tid>)
    ensures id !in q ==> r == q
    ensures id in q ==> r == q[..IndexOf(q, id)] + q[IndexOf(q, id) + 1..]
  {
    if q == [] then []
    else
      assert q == [q[0]] + q[1..];
      if q[0] == id then q[1..]
      else
        var rest := Delete(q[1..], id);
        assert id in q[1..] ==>
          var k := IndexOf(q[1..], id);
          && IndexOf(q, id) == k + 1
          && q[..k + 1] == [q[0]] + q[1..][..k]
          && q[k + 2..] == q[1..][k + 1..];
        [q[0]] + rest
  }

  /** A delete removes one copy of `id` when there is one, and nothing else. */
  lemma {:induction false} DeleteMultiset(q: seq<Tid>, id: Tid)
    ensures multiset(q) == multiset(Delete(q, id)) + (if id in q then multiset{id} else multiset{})
  {
    if id in q {
      var k := IndexOf(q, id);
      assert q == q[..k] + [id] + q[k + 1..];
    }
  }

  /** Every id left after a delete was already in the queue. */
  lemma DeleteSubset(q: seq<Tid>, id: Tid, x: Tid)
    requires x in Delete(q, id)
    ensures x in q
  {
    DeleteMultiset(q, id);
    assert x in multiset(Delete(q, id));
  }

  /** Deleting an id that was just inserted at the tail restores the queue. */
  lemma {:induction false} DeleteInsert(q: seq<Tid>, id: Tid)
    requires id !in q
    ensures Delete(Insert(q, id), id) == q
  {
    assert id in Insert(q, id);
    var k := IndexOf(Insert(q, id), id);
    assert k == |q|;
  }

  /** Deleting the head of a queue drops exactly the head. */
  lemma DeleteHead(q: seq<Tid>)
    requires q != []
    ensures Delete(q, q[0]) == q[1..]
  {
  }

  /** Deleting some id other than the head keeps the head in front. */
  lemma {:induction false} DeleteKeepsHead(q: seq<Tid>, id: Tid)
    requires q != [] && q[0] != id
    ensures Delete(q, id) != [] && Delete(q, id)[0] == q[0]
  {
  }
}

=== FILE: ring_buffer.dfy ===
/**
 * The bounded request buffer of the web server
 * (webserver/os-050/webserver/server_thread.c). The producer `server_request`
 * puts connection descriptors at `in`, the workers of `create_worker` take
 * them from `out`; both indices advance modulo `max_requests`. The file-level
 * globals `in` and `out` are held in the server record here. Locking and
 * waiting are left out: a put is only made when there is room and a get only
 * when there is a request.
 */
module RingBuffer {
  import opened Options

  datatype Server = Server(
    nrThreads: int,
    maxRequests: int,
    maxCacheSize: int,
    numRequests: int,
    buffer: seq<int>,
    inIndex: int,
    outIndex: int)

  /** The buffer invariant: a count in range and `in` that many slots past `out`. */
  predicate Valid(sv: Server) {
    && sv.maxRequests > 0
    && |sv.buffer| == sv.maxRequests + 1
    && 0 <= sv.numRequests <= sv.maxRequests
    && 0 <= sv.inIndex < sv.maxRequests
    && 0 <= sv.outIndex < sv.maxRequests
    && sv.inIndex == (sv.outIndex + sv.numRequests) % sv.maxRequests
  }

  /** Adding at most one lap to an index below `m` wraps it at most once. */
  lemma ModWrap(o: int, x: int, m: int)
    requires 0 <= o < m && 0 <= x <= m
    ensures (o + x) % m == if o + x < m then o + x else o + x - m
  {
    if o + x >= m {
      assert o + x == m + (o + x - m);
    }
  }

  /** The slot holding the k-th oldest queued request. */
  function Slot(sv: Server, k: int): (i: int)
    requires Valid(sv) && 0 <= k < sv.numRequests
    ensures 0 <= i < sv.maxRequests
  {
    (sv.outIndex + k) % sv.maxRequests
  }

  /** The queued descriptors, oldest first. */
  function Contents(sv: Server): (q: seq<int>)
    requires Valid(sv)
    ensures |q| == sv.numRequests
    ensures forall k :: 0 <= k < |q| ==> q[k] == sv.buffer[Slot(sv, k)]
  {
    seq(sv.numRequests, k requires 0 <= k < sv.numRequests => sv.buffer[Slot(sv, k)])
  }

  /**
   * server_init, from a process start where `in` and `out` are 0. The server
   * always records the three sizes. When any of them is positive the count
   * is `in - out`, and a positive `max_requests` gets a buffer of
   * `max_requests + 1` slots. Otherwise the count is left unset; it is 0
   * here, and there is no buffer.
   */
  function ServerInit(nrThreads: int, maxRequests: int, maxCacheSize: int): (r: Server)
    ensures r.nrThreads == nrThreads && r.maxRequests == maxRequests
    ensures r.maxCacheSize == maxCacheSize
    ensures r.numRequests == 0 && r.inIndex == 0 && r.outIndex == 0
    ensures maxRequests > 0 ==> Valid(r) && Contents(r) == []
    ensures maxRequests <= 0 ==> r.buffer == []
  {
    var inIndex, outIndex := 0, 0;
    if nrThreads > 0 || maxRequests > 0 || maxCacheSize > 0 then
      var buffer := if maxRequests <= 0 then [] else seq(maxRequests + 1, _ => 0);
      Server(nrThreads, maxRequests, maxCacheSize, inIndex - outIndex, buffer, inIndex, outIndex)
    else
      Server(nrThreads, maxRequests, maxCacheSize, 0, [], inIndex, outIndex)
  }

  /** A put: the new state and whether the `empty` condition was broadcast. */
  datatype Put = Put(sv: Server, wakeWorkers: bool)

  /**
   * The buffer half of server_request: store at `in`, broadcast to waiting
   * workers when the buffer was empty, count one more and advance `in`.
   */
  function Enqueue(sv: Server, connfd: int): (r: Put)
    requires Valid(sv) && sv.numRequests < sv.maxRequests
    ensures Valid(r.sv)
    ensures Contents(r.sv) == Contents(sv) + [connfd]
    ensures r.wakeWorkers <==> sv.numRequests == 0
    ensures r.sv.maxRequests == sv.maxRequests && r.sv.nrThreads == sv.nrThreads
  {
    var buffer := sv.buffer[sv.inIndex := connfd];
    var next := (sv.inIndex + 1) % sv.maxRequests;
    ModWrap(sv.outIndex, sv.numRequests, sv.maxRequests);
    ModWrap(sv.outIndex, sv.numRequests + 1, sv.maxRequests);
    ModWrap(sv.inIndex, 1, sv.maxRequests);
    var r := Put(sv.(buffer := buffer, numRequests := sv.numRequests + 1, inIndex := next),
                 sv.numRequests == 0);
    assert forall k :: 0 <= k < sv.numRequests ==> Slot(r.sv, k) == Slot(sv, k) != sv.inIndex by {
      forall k | 0 <= k < sv.numRequests ensures Slot(r.sv, k) == Slot(sv, k) != sv.inIndex {
        ModWrap(sv.outIndex, k, sv.maxRequests);
      }
    }
    r
  }

  /**
   * server_request: with no worker threads the request is served on the
   * spot and the buffer is untouched; otherwise it is put in the buffer.
   */
  function ServerRequest(sv: Server, connfd: int): (r: Put)
    requires sv.nrThreads == 0 || (Valid(sv) && sv.numRequests < sv.maxRequests)
    ensures sv.nrThreads == 0 ==> r == Put(sv, false)
    ensures sv.nrThreads != 0 ==> Valid(r.sv) && Contents(r.sv) == Contents(sv) + [connfd]
    ensures sv.nrThreads != 0 ==> (r.wakeWorkers <==> sv.numRequests == 0)
  {
    if sv.nrThreads == 0 then Put(sv, false) else Enqueue(sv, connfd)
  }

  /**
   * The first request to a fresh server: without workers it is served on the
   * spot and the server stays as initialised; with workers and a buffer it
   * is the only queued descriptor and wakes the workers.
   */
  lemma FirstRequest(nrThreads: int, maxRequests: int, maxCacheSize: int, connfd: int)
    requires nrThreads == 0 || maxRequests > 0
    ensures var sv := ServerInit(nrThreads, maxRequests, maxCacheSize);
      var r := ServerRequest(sv, connfd);
      && (nrThreads == 0 ==> r == Put(sv, false))
      && (nrThreads != 0 ==> Valid(r.sv) && Contents(r.sv) == [connfd] && r.wakeWorkers)
  {
  }

  /** A get: the new state, the descriptor read and whether `full` was broadcast. */
  datatype Take = Take(sv: Server, connfd: int, wakeProducers: bool)

  /** Index `i` moved one place on around a ring of `m` slots. */
  function Advance(i: int, m: int): (r: int)
    requires 0 <= i < m
    ensures r == if i + 1 < m then i + 1 else 0
  {
    ModWrap(i, 1, m);
    (i + 1) % m
  }

  /** Moving on by one and then by `k` is moving on by `k + 1`. */
  lemma AdvanceThenAdd(o: int, k: int, m: int)
    requires 0 <= o < m && 0 <= k < m
    ensures (Advance(o, m) + k) % m == (o + k + 1) % m
  {
    ModWrap(Advance(o, m), k, m);
    ModWrap(o, k + 1, m);
  }

  /** Moving `out` on by one and counting one less keeps the invariant. */
  lemma DequeueKeepsValid(sv: Server)
    requires Valid(sv) && sv.numRequests > 0
    ensures Valid(sv.(numRequests := sv.numRequests - 1, outIndex := Advance(sv.outIndex, sv.maxRequests)))
  {
    AdvanceThenAdd(sv.outIndex, sv.numRequests - 1, sv.maxRequests);
  }

  /**
   * The buffer half of one create_worker iteration: read the slot at `out`,
   * broadcast to a waiting producer when the buffer was full, count one less
   * and advance `out`.
   */
  function Dequeue(sv: Server): (r: Take)
    requires Valid(sv) && sv.numRequests > 0
    ensures Valid(r.sv)
    ensures Contents(sv) == [r.connfd] + Contents(r.sv)
    ensures r.wakeProducers <==> sv.numRequests == sv.maxRequests
    ensures r.sv.maxRequests == sv.maxRequests && r.sv.nrThreads == sv.nrThreads
  {
    var connfd := sv.buffer[sv.outIndex];
    var after := sv.(numRequests := sv.numRequests - 1,
                     outIndex := Advance(sv.outIndex, sv.maxRequests));
    DequeueKeepsValid(sv);
    assert Contents(sv) == [connfd] + Contents(after) by {
      var a, b := Contents(sv), Contents(after);
      ModWrap(sv.outIndex, 0, sv.maxRequests);
      forall k | 0 < k < |a| ensures a[k] == ([connfd] + b)[k] {
        AdvanceThenAdd(sv.outIndex, k - 1, sv.maxRequests);
        assert Slot(after, k - 1) == Slot(sv, k);
      }
    }
    Take(after, connfd, sv.numRequests == sv.maxRequests)
  }

  /** Put every descriptor of `cs` in order. */
  function PutAll(sv: Server, cs: seq<int>): (r: Server)
    requires Valid(sv) && sv.numRequests + |cs| <= sv.maxRequests
    ensures Valid(r) && r.maxRequests == sv.maxRequests
    ensures r.numRequests == sv.numRequests + |cs|
    decreases |cs|
  {
    if cs == [] then sv else PutAll(Enqueue(sv, cs[0]).sv, cs[1..])
  }

  /** Take every queued descriptor, in the order the gets return them. */
  function TakeAll(sv: Server): (r: seq<int>)
    requires Valid(sv)
    ensures |r| == sv.numRequests
    decreases sv.numRequests
  {
    if sv.numRequests == 0 then [] else
      var t := Dequeue(sv);
      [t.connfd] + TakeAll(t.sv)
  }

  /** Taking everything returns the queued descriptors oldest first. */
  lemma {:induction false} TakeAllIsContents(sv: Server)
    requires Valid(sv)
    ensures TakeAll(sv) == Contents(sv)
    decreases sv.numRequests
  {
    if sv.numRequests > 0 {
      TakeAllIsContents(Dequeue(sv).sv);
    }
  }

  /** Putting a batch extends the contents by that batch. */
  lemma {:induction false} PutAllAppends(sv: Server, cs: seq<int>)
    requires Valid(sv) && sv.numRequests + |cs| <= sv.maxRequests
    ensures Contents(PutAll(sv, cs)) == Contents(sv) + cs
    decreases |cs|
  {
    if cs != [] {
      var next := Enqueue(sv, cs[0]).sv;
      PutAllAppends(next, cs[1..]);
      assert cs == [cs[0]] + cs[1..];
    }
  }

  /**
   * FIFO order: requests put into an empty buffer come back from the
   * workers' gets in the order they were put.
   */
  lemma Fifo(sv: Server, cs: seq<int>)
    requires Valid(sv) && sv.numRequests == 0 && |cs| <= sv.maxRequests
    ensures TakeAll(PutAll(sv, cs)) == cs
  {
    PutAllAppends(sv, cs);
    TakeAllIsContents(PutAll(sv, cs));
  }
}

=== FILE: thread_bounds.dfy ===
/**
 * The three table-index guards of threads/thread.c exactly as written, each
 * with the inputs that take it outside `t_array`. The scheduler model in
 * module Threads uses the corrected guards.
 */
module ThreadBounds {
  import opened ReadyQueue
  import opened Threads

  /**
   * thread_yield (thread.c:250-270) as written: after the range test
   * `want < -7 || want > THREAD_MAX_THREADS` and the SELF / ANY branches,
   * this holds exactly when line 270 evaluates `t_array[want]`.
   */
  predicate YieldIndexesTableAsWritten(current: Tid, want: Tid) {
    && !(want < ThreadFailed || want > MaxThreads)
    && !(want == current || want == ThreadSelf)
    && want != ThreadAny
  }

  /**
   * The tids that line 270 reads outside the table are exactly
   * THREAD_MAX_THREADS and the five sentinels from THREAD_INVALID down to
   * THREAD_FAILED.
   */
  lemma YieldOutOfBoundsAsWritten(current: Tid, want: Tid)
    requires InRange(current)
    ensures YieldIndexesTableAsWritten(current, want) && !InRange(want) <==>
      want == MaxThreads || ThreadFailed <= want <= ThreadInvalid
  {
  }

  /** The corrected guard: every such tid is answered with THREAD_INVALID. */
  lemma YieldRejectsOutOfBounds(s: Sched, want: Tid)
    requires Valid(s) && !s.table[s.current].killed
    requires want == MaxThreads || ThreadFailed <= want <= ThreadInvalid
    ensures ThreadYield(s, want) == Returns(s, ThreadInvalid)
  {
  }

  /**
   * thread_kill (thread.c:321) as written: `tid < 0 || tid > THREAD_MAX_THREADS`
   * is false exactly when `t_array[tid]` is read next.
   */
  predicate KillIndexesTableAsWritten(tid: Tid) {
    !(tid < 0 || tid > MaxThreads)
  }

  /** The one tid the kill guard lets through to a read outside the table. */
  lemma KillOutOfBoundsAsWritten(tid: Tid)
    ensures KillIndexesTableAsWritten(tid) && !InRange(tid) <==> tid == MaxThreads
  {
  }

  /**
   * free_exited_thread (thread.c:144-153) as written: whether its scan reads
   * `t_array[j]`. Slot j-1 leads on to slot j when it was read and is empty
   * (the inner `while`, which has no bound) or holds a non-EXITED thread and
   * j is still below THREAD_MAX_THREADS (the `for`).
   */
  predicate ScanReadsAsWritten(table: map<Tid, Thread>, j: nat)
    decreases j
  {
    j == 0 ||
    (&& ScanReadsAsWritten(table, j - 1)
     && (j - 1 in table ==> table[j - 1].status != Exited && j < MaxThreads))
  }

  /**
   * With no EXITED thread and the last slot empty, the scan reads every slot
   * up to and including `t_array[THREAD_MAX_THREADS]`, one past the table.
   */
  lemma {:induction false} ScanOverrunsAsWritten(table: map<Tid, Thread>, j: nat)
    requires forall id :: id in table ==> InRange(id)
    requires forall id :: InRange(id) ==> !IsExited(table, id)
    requires MaxThreads - 1 !in table
    requires j <= MaxThreads
    ensures ScanReadsAsWritten(table, j)
  {
    if j > 0 {
      ScanOverrunsAsWritten(table, j - 1);
      if j - 1 in table {
        assert InRange(j - 1) && !IsExited(table, j - 1);
      }
    }
  }

  /** Right after thread_init a thread_exit's scan already reads past the table. */
  lemma InitScanOverruns()
    ensures ScanReadsAsWritten(ThreadInit().table, MaxThreads)
    ensures !InRange(MaxThreads)
  {
    var t := ThreadInit().table;
    assert forall id :: InRange(id) ==> !IsExited(t, id);
    ScanOverrunsAsWritten(t, MaxThreads);
  }
}

=== FILE: threads.dfy ===
/**
 * The bookkeeping of the user-level thread library (threads/thread.c): the
 * thread table `t_array`, the ready queue and the running thread, and the
 * lifecycle operations on them. A context switch is one atomic step: the
 * target becomes the current RUNNING thread and the old current thread goes
 * to the tail of the ready queue as READY. Where the C code would dereference
 * an empty slot the step is `Fault`; where it would end the process it is
 * `Halted`.
 */
module Threads {
  import opened ReadyQueue

  /** THREAD_MAX_THREADS: the size of the thread table. */
  const MaxThreads: int := 1024

  /** The sentinel results of thread.h; all negative, all distinct. */
  const ThreadAny: Tid := -1
  const ThreadSelf: Tid := -2
  const ThreadInvalid: Tid := -3
  const ThreadNone: Tid := -4
  const ThreadNoMore: Tid := -5
  const ThreadNoMemory: Tid := -6
  const ThreadFailed: Tid := -7

  datatype Status = Ready | Running | Exited | Blocked

  /** A thread record; its tid is its key in the table. */
  datatype Thread = Thread(status: Status, killed: bool)

  /**
   * The scheduler state: the occupied slots of `t_array`, the ready queue
   * and the tid of `current_thread`.
   */
  datatype Sched = Sched(table: map<Tid, Thread>, ready: seq<Tid>, current: Tid)

  /**
   * What a call leaves behind. In `Returns`, `ret` is the call's return
   * value; after a switch the caller receives it only when it is resumed.
   * thread_exit returns nothing: there `ret` is the tid that now runs.
   * `Fault` is a call on which the C code reads an empty table slot or a
   * thread record it has just freed.
   */
  datatype Outcome =
    | Returns(s: Sched, ret: Tid)
    | Halted  // the last thread exits and the process ends
    | Fault

  predicate InRange(id: Tid) {
    0 <= id < MaxThreads
  }

  predicate IsExited(table: map<Tid, Thread>, id: Tid) {
    id in table && table[id].status == Exited
  }

  /**
   * What every operation keeps: all tids index the table, the current thread
   * occupies its slot and is the one RUNNING thread. The ready queue is NOT
   * required to hold only READY threads: thread 0 is put in it while running.
   */
  predicate Valid(s: Sched) {
    && (forall id :: id in s.table ==> InRange(id))
    && (forall id :: id in s.ready ==> InRange(id))
    && s.current in s.table
    && s.table[s.current].status == Running
    && (forall id :: id in s.table && id != s.current ==> s.table[id].status != Running)
  }

  /** Dropping a tid from the ready queue keeps the state valid. */
  lemma DeleteKeepsValid(s: Sched, id: Tid)
    requires Valid(s)
    ensures Valid(s.(ready := Delete(s.ready, id)))
  {
    forall x | x in Delete(s.ready, id)
      ensures InRange(x)
    {
      DeleteSubset(s.ready, id, x);
    }
  }

  /** The table with the status of the occupied slot `id` replaced by `st`. */
  function SetStatus(table: map<Tid, Thread>, id: Tid, st: Status): (r: map<Tid, Thread>)
    requires id in table
    ensures r.Keys == table.Keys
    ensures r[id] == table[id].(status := st)
    ensures forall x :: x in table && x != id ==> r[x] == table[x]
  {
    table[id := table[id].(status := st)]
  }

  /** The lowest free slot at or above `i`, or THREAD_NOMORE. */
  function FreeFrom(table: map<Tid, Thread>, i: int): (r: Tid)
    requires 0 <= i <= MaxThreads
    ensures r == ThreadNoMore || (i <= r < MaxThreads && r !in table)
    ensures r == ThreadNoMore ==> forall id :: i <= id < MaxThreads ==> id in table
    ensures r != ThreadNoMore ==> forall id :: i <= id < r ==> id in table
    decreases MaxThreads - i
  {
    if i == MaxThreads then ThreadNoMore
    else if i !in table then i
    else FreeFrom(table, i + 1)
  }

  /** getNewTid: the lowest empty slot of the table, or THREAD_NOMORE when all are taken. */
  function GetNewTid(table: map<Tid, Thread>): (r: Tid)
    ensures r == ThreadNoMore <==> forall id :: InRange(id) ==> id in table
    ensures r != ThreadNoMore ==> InRange(r) && r !in table
    ensures r != ThreadNoMore ==> forall id :: 0 <= id < r ==> id in table
  {
    FreeFrom(table, 0)
  }

  /** The lowest EXITED slot at or above `i`, or THREAD_NONE. */
  function ExitedFrom(table: map<Tid, Thread>, i: int): (r: Tid)
    requires 0 <= i <= MaxThreads
    ensures r == ThreadNone || (i <= r < MaxThreads && IsExited(table, r))
    ensures r == ThreadNone ==> forall id :: i <= id < MaxThreads ==> !IsExited(table, id)
    ensures r != ThreadNone ==> forall id :: i <= id < r ==> !IsExited(table, id)
    decreases MaxThreads - i
  {
    if i == MaxThreads then ThreadNone
    else if IsExited(table, i) then i
    else ExitedFrom(table, i + 1)
  }

  /** The slot free_exited_thread reclaims: the lowest EXITED one, or THREAD_NONE. */
  function FirstExited(table: map<Tid, Thread>): (r: Tid)
    ensures r == ThreadNone <==> forall id :: InRange(id) ==> !IsExited(table, id)
    ensures r != ThreadNone ==> InRange(r) && IsExited(table, r)
    ensures r != ThreadNone ==> forall id :: 0 <= id < r ==> !IsExited(table, id)
  {
    ExitedFrom(table, 0)
  }

  /**
   * free_exited_thread: reclaim the lowest EXITED thread, dropping its slot
   * and its first ready-queue node, and return its tid; THREAD_NONE and no
   * change when no thread has exited. The scan stops at the end of the table.
   */
  function FreeExited(s: Sched): (r: (Sched, Tid))
    requires Valid(s)
    ensures r.1 == ThreadNone <==> forall id :: InRange(id) ==> !IsExited(s.table, id)
    ensures r.1 == ThreadNone ==> r.0 == s
    ensures r.1 != ThreadNone ==> InRange(r.1) && IsExited(s.table, r.1)
    ensures r.1 != ThreadNone ==> forall id :: 0 <= id < r.1 ==> !IsExited(s.table, id)
    ensures r.0.table == s.table - {r.1}
    ensures r.0.ready == Delete(s.ready, r.1)
    ensures r.0.current == s.current
    ensures Valid(r.0)
  {
    var id := FirstExited(s.table);
    if id == ThreadNone then
      assert id !in s.ready && id !in s.table;
      (s, id)
    else
      DeleteKeepsValid(s, id);
      (Sched(s.table - {id}, Delete(s.ready, id), s.current), id)
  }

  /**
   * thread_init with queue_init: thread 0 is RUNNING in slot 0 and is also
   * the one node of the ready queue.
   */
  function ThreadInit(): (s: Sched)
    ensures Valid(s)
    ensures s.current == 0 && s.table.Keys == {0}
    ensures s.table[0] == Thread(Running, false)
    ensures s.ready == [0]
  {
    Sched(map[0 := Thread(Running, false)], [0], 0)
  }

  /** thread_id: the tid of the one RUNNING thread. */
  function ThreadId(s: Sched): (r: Tid)
    requires Valid(s)
    ensures r in s.table && s.table[r].status == Running
    ensures forall id :: id in s.table && s.table[id].status == Running ==> id == r
  {
    s.current
  }

  /**
   * thread_create: take the lowest free tid, fill its slot with a READY,
   * unkilled record and append it to the ready queue. `recordAllocated` and
   * `stackAllocated` are the outcomes of the two mallocs.
   */
  function ThreadCreate(s: Sched, recordAllocated: bool, stackAllocated: bool): (r: Outcome)
    requires Valid(s)
    ensures r.Returns? && Valid(r.s) && r.s.current == s.current
    ensures r.ret == ThreadNoMore <==> forall id :: InRange(id) ==> id in s.table
    ensures r.ret == ThreadNoMemory <==>
      (exists id :: InRange(id) && id !in s.table) && !(recordAllocated && stackAllocated)
    ensures r.ret < 0 ==> r.s == s
    ensures r.ret < 0 ==> r.ret == ThreadNoMore || r.ret == ThreadNoMemory
    ensures r.ret >= 0 ==>
      && InRange(r.ret) && r.ret !in s.table
      && (forall id :: 0 <= id < r.ret ==> id in s.table)
      && r.s.table == s.table[r.ret := Thread(Ready, false)]
      && r.s.ready == Insert(s.ready, r.ret)
  {
    var tid := GetNewTid(s.table);
    if tid == ThreadNoMore then Returns(s, ThreadNoMore)
    else if !recordAllocated then Returns(s, ThreadNoMemory)
    else if !stackAllocated then Returns(s, ThreadNoMemory)
    else
      Returns(Sched(s.table[tid := Thread(Ready, false)], Insert(s.ready, tid), s.current), tid)
  }

  /**
   * The switch itself: `target` becomes RUNNING and current, and the caller
   * becomes READY at the tail of the ready queue.
   */
  function Handover(s: Sched, target: Tid): (r: Sched)
    requires Valid(s) && target in s.table && target != s.current
    ensures Valid(r)
    ensures r.current == target
    ensures r.table == s.table[target := s.table[target].(status := Running)]
                              [s.current := s.table[s.current].(status := Ready)]
    ensures r.ready == Insert(s.ready, s.current)
  {
    var table := SetStatus(SetStatus(s.table, target, Running), s.current, Ready);
    Sched(table, Insert(s.ready, s.current), target)
  }

  /**
   * The switching half of thread_yield (threads/thread.c:273-295): unlink the
   * target's ready node, reclaim an exited thread, make the target RUNNING
   * and current, and put the caller at the ready-queue tail as READY. If the
   * target's slot is empty, or is the one just reclaimed, C dereferences it.
   */
  function SwitchTo(s: Sched, target: Tid): (r: Outcome)
    requires Valid(s) && InRange(target) && target != s.current
    ensures !r.Halted?
    ensures r.Fault? <==> target !in s.table || target == FirstExited(s.table)
    ensures r.Returns? ==> Valid(r.s) && r.ret == target && r.s.current == target
    ensures r.Returns? ==>
      r.s.table == (s.table - {FirstExited(s.table)})
        [target := s.table[target].(status := Running)]
        [s.current := s.table[s.current].(status := Ready)]
    ensures r.Returns? ==>
      r.s.ready == Insert(Delete(Delete(s.ready, target), FirstExited(s.table)), s.current)
  {
    DeleteKeepsValid(s, target);
    var (s1, _) := FreeExited(s.(ready := Delete(s.ready, target)));
    if target !in s1.table then Fault
    else Returns(Handover(s1, target), target)
  }

  /**
   * The end of thread_exit: the caller becomes EXITED, then `next` becomes
   * RUNNING and current and its first ready node is unlinked. When `next` is
   * the caller itself the second write wins.
   */
  function Retire(s: Sched, next: Tid): (r: Sched)
    requires Valid(s) && next in s.table
    ensures Valid(r)
    ensures r.current == next
    ensures r.table == s.table[s.current := s.table[s.current].(status := Exited)]
                              [next := s.table[next].(status := Running)]
    ensures r.ready == Delete(s.ready, next)
  {
    DeleteKeepsValid(s, next);
    var table := SetStatus(SetStatus(s.table, s.current, Exited), next, Running);
    Sched(table, Delete(s.ready, next), next)
  }

  /**
   * thread_exit: with an empty ready queue the process ends. Otherwise an
   * exited thread is reclaimed, the caller becomes EXITED (its slot stays
   * occupied) and the ready-queue head is unlinked and becomes RUNNING and
   * current.
   */
  function ThreadExit(s: Sched): (r: Outcome)
    requires Valid(s)
    ensures r.Halted? <==> s.ready == []
    ensures r.Fault? <==>
      s.ready != [] && (s.ready[0] !in s.table || s.ready[0] == FirstExited(s.table))
    ensures r.Returns? ==> Valid(r.s) && r.ret == s.ready[0] && r.s.current == s.ready[0]
    ensures r.Returns? ==>
      r.s.table == (s.table - {FirstExited(s.table)})
        [s.current := s.table[s.current].(status := Exited)]
        [s.ready[0] := s.table[s.ready[0]].(status := Running)]
    ensures r.Returns? ==> r.s.ready == Delete(s.ready, FirstExited(s.table))[1..]
  {
    if s.ready == [] then Halted
    else
      var next := s.ready[0];
      var (s1, f) := FreeExited(s);
      if next !in s1.table then Fault
      else
        DeleteKeepsHead(s.ready, f);
        DeleteHead(s1.ready);
        Returns(Retire(s1, next), next)
  }

  /**
   * thread_yield. A caller whose killed flag is set unlinks itself from the
   * ready queue and exits instead. Otherwise the argument is validated:
   * THREAD_SELF or the caller's own tid returns that tid; THREAD_ANY with an
   * empty queue, or with the caller at its head, returns THREAD_NONE; an
   * out-of-range tid, an empty slot or a non-READY target returns
   * THREAD_INVALID. None of these changes anything. A valid target is
   * switched to.
   */
  function ThreadYield(s: Sched, want: Tid): (r: Outcome)
    requires Valid(s)
    ensures s.table[s.current].killed ==>
      r == ThreadExit(s.(ready := Delete(s.ready, s.current)))
    ensures !s.table[s.current].killed && (want == ThreadSelf || want == s.current) ==>
      r == Returns(s, s.current)
    ensures !s.table[s.current].killed && want == ThreadAny ==>
      if s.ready == [] || s.ready[0] == s.current then r == Returns(s, ThreadNone)
      else r == SwitchTo(s, s.ready[0])
    ensures (&& !s.table[s.current].killed
             && want != s.current && want != ThreadSelf && want != ThreadAny
             && (!InRange(want) || want !in s.table || s.table[want].status != Ready)) ==>
      r == Returns(s, ThreadInvalid)
    ensures (&& !s.table[s.current].killed
             && InRange(want) && want != s.current
             && want in s.table && s.table[want].status == Ready) ==>
      r.Returns? && r == SwitchTo(s, want)
    ensures r.Returns? ==> Valid(r.s)
  {
    var cur := s.current;
    if s.table[cur].killed then
      DeleteKeepsValid(s, cur);
      ThreadExit(s.(ready := Delete(s.ready, cur)))
    else if want < ThreadFailed || want > MaxThreads then Returns(s, ThreadInvalid)
    else if want == cur || want == ThreadSelf then Returns(s, cur)
    else if want == ThreadAny then
      if s.ready == [] || s.ready[0] == cur then Returns(s, ThreadNone)
      else SwitchTo(s, s.ready[0])
    // The C code indexes t_array[want] here even for want == THREAD_MAX_THREADS
    // and for the negative sentinels; those are rejected instead.
    else if !InRange(want) then Returns(s, ThreadInvalid)
    else if want !in s.table || s.table[want].status != Ready then Returns(s, ThreadInvalid)
    else SwitchTo(s, want)
  }

  /**
   * thread_kill: reject an out-of-range tid, an empty slot or the caller
   * itself with THREAD_INVALID; otherwise set only the target's killed flag.
   */
  function ThreadKill(s: Sched, tid: Tid): (r: Outcome)
    requires Valid(s)
    ensures r.Returns? && Valid(r.s)
    ensures r.ret == ThreadInvalid <==> !InRange(tid) || tid !in s.table || tid == s.current
    ensures r.ret == ThreadInvalid ==> r.s == s
    ensures r.ret != ThreadInvalid ==>
      && r.ret == tid
      && r.s.ready == s.ready && r.s.current == s.current
      && r.s.table.Keys == s.table.Keys
      && r.s.table[tid].killed && r.s.table[tid].status == s.table[tid].status
      && (forall id :: id in s.table && id != tid ==> r.s.table[id] == s.table[id])
  {
    // The C range check is `tid > THREAD_MAX_THREADS`; tid == THREAD_MAX_THREADS is rejected here.
    if tid < 0 || tid >= MaxThreads || tid !in s.table || tid == s.current then
      Returns(s, ThreadInvalid)
    else
      Returns(s.(table := s.table[tid := s.table[tid].(killed := true)]), tid)
  }

  /**
   * queue_init leaves thread 0 at the head of the ready queue while it runs,
   * so THREAD_ANY finds the caller at the head and returns THREAD_NONE, even
   * once another thread has been created behind it.
   */
  lemma InitialHeadIsCaller()
    ensures ThreadYield(ThreadInit(), ThreadAny) == Returns(ThreadInit(), ThreadNone)
    ensures var c := ThreadCreate(ThreadInit(), true, true);
      c.ret == 1 && ThreadYield(c.s, ThreadAny) == Returns(c.s, ThreadNone)
  {
    var c := ThreadCreate(ThreadInit(), true, true);
    assert 0 !in c.s.table ==> false;
    assert c.s.ready == [0, 1];
  }

  /**
   * Round-robin: with no exited thread and a slot-holding head other than
   * the caller, THREAD_ANY runs the head and moves the caller to the tail,
   * the rest of the queue keeping its order.
   */
  lemma {:induction false} YieldAnyRotates(s: Sched)
    requires Valid(s) && !s.table[s.current].killed
    requires s.ready != [] && s.ready[0] != s.current && s.ready[0] in s.table
    requires forall id :: InRange(id) ==> !IsExited(s.table, id)
    ensures var r := ThreadYield(s, ThreadAny);
      && r.Returns? && r.ret == s.ready[0] && r.s.current == s.ready[0]
      && r.s.ready == s.ready[1..] + [s.current]
      && r.s.table[s.ready[0]].status == Running && r.s.table[s.current].status == Ready
  {
    var head := s.ready[0];
    assert FirstExited(s.table) == ThreadNone;
    DeleteHead(s.ready);
    assert ThreadNone !in s.ready[1..] by {
      forall x | x in s.ready[1..] ensures x != ThreadNone {
        assert x in s.ready;
      }
    }
  }

  /**
   * An exiting thread's slot stays occupied, EXITED, until the next
   * free_exited_thread, which clears it and returns its tid.
   */
  lemma {:induction false} ExitedSlotReclaimedLater(s: Sched)
    requires Valid(s)
    requires s.ready != [] && s.ready[0] != s.current && s.ready[0] in s.table
    requires forall id :: InRange(id) ==> !IsExited(s.table, id)
    ensures var r := ThreadExit(s);
      && r.Returns? && s.current in r.s.table && r.s.table[s.current].status == Exited
      && FreeExited(r.s).1 == s.current
      && FreeExited(r.s).0.table == r.s.table - {s.current}
      && FreeExited(r.s).0.ready == Delete(r.s.ready, s.current)
  {
    var r := ThreadExit(s);
    assert FirstExited(s.table) == ThreadNone;
    assert r.Returns?;
    var f := FreeExited(r.s).1;
    assert IsExited(r.s.table, s.current);
    assert f != ThreadNone;
    assert IsExited(r.s.table, f);
  }

  /** A tid reclaimed by free_exited_thread is available again to thread_create. */
  lemma ReclaimedTidIsReused(s: Sched)
    requires Valid(s) && FreeExited(s).1 != ThreadNone
    ensures var (s1, f) := FreeExited(s);
      var c := ThreadCreate(s1, true, true);
      0 <= c.ret <= f
  {
    var (s1, f) := FreeExited(s);
    assert f !in s1.table;
  }

  /**
   * Cancellation is observed by the victim itself: after thread_kill(t) and
   * a switch to t, t's next thread_yield (whatever its argument) makes it
   * EXITED and runs the ready-queue head instead.
   */
  lemma {:induction false} KilledThreadExitsAtItsNextYield(s: Sched, t: Tid, want: Tid)
    requires Valid(s) && !s.table[s.current].killed
    requires InRange(t) && t != s.current && t in s.table && s.table[t].status == Ready
    requires forall id :: InRange(id) ==> !IsExited(s.table, id)
    requires forall id :: id in s.ready ==> id in s.table
    requires t !in Delete(s.ready, t)
    ensures var k := ThreadKill(s, t);
      var y := ThreadYield(k.s, t);
      && k.ret == t && y.Returns? && y.s.current == t
      && var z := ThreadYield(y.s, want);
         && z.Returns? && z.s.table[t].status == Exited
         && z.s.current == (Delete(s.ready, t) + [s.current])[0]
  {
    var k := ThreadKill(s, t);
    assert k.ret == t;
    assert forall id :: InRange(id) ==> !IsExited(k.s.table, id) by {
      forall id | InRange(id) ensures !IsExited(k.s.table, id) {
        if id == t { } else { assert !IsExited(s.table, id); }
      }
    }
    assert FirstExited(k.s.table) == ThreadNone;
    var y := ThreadYield(k.s, t);
    assert y == SwitchTo(k.s, t);
    assert ThreadNone !in Delete(s.ready, t) by {
      if ThreadNone in Delete(s.ready, t) {
        DeleteSubset(s.ready, t, ThreadNone);
      }
    }
    assert y.s.ready == Delete(s.ready, t) + [s.current];
    assert y.s.table[t].killed;
    assert forall id :: InRange(id) ==> !IsExited(y.s.table, id) by {
      forall id | InRange(id) ensures !IsExited(y.s.table, id) {
        if id != t && id != s.current && id in s.table {
          assert y.s.table[id] == k.s.table[id];
          assert !IsExited(s.table, id);
        }
      }
    }
    assert FirstExited(y.s.table) == ThreadNone;
    var q := Delete(y.s.ready, t);
    assert t !in y.s.ready;
    assert q == y.s.ready;
    var head := q[0];
    assert head in y.s.table by {
      if head == s.current { } else {
        assert head in Delete(s.ready, t);
        DeleteSubset(s.ready, t, head);
      }
    }
    DeleteKeepsValid(y.s, t);
    var z := ThreadYield(y.s, want);
    assert z == ThreadExit(y.s.(ready := q));
  }
}

=== FILE: word_count.dfy ===
/**
 * The word-frequency table of warmup/wc.c: `wc_init` splits its input with
 * strtok on space, tab, newline and carriage return and counts every token
 * in a chained hash table of (word, occurrence) nodes whose size is twice an
 * estimate of the word count. The hash is an abstract 32-bit accumulator
 * `key`; only its final reduction into a bucket index is modelled.
 */
module WordCount {
  import opened Options

  const IntMin: int := -0x8000_0000
  const IntMax: int := 0x7fff_ffff

  /** The delimiters given to strtok. */
  predicate IsDelim(c: char) {
    c == ' ' || c == '\t' || c == '\n' || c == '\r'
  }

  /** isspace in the C locale: the delimiters plus vertical tab and form feed. */
  predicate IsSpace(c: char) {
    IsDelim(c) || c == '\U{000B}' || c == '\U{000C}'
  }

  /** A strtok token: non-empty and free of delimiters. */
  predicate IsWord(w: string) {
    |w| > 0 && forall i :: 0 <= i < |w| ==> !IsDelim(w[i])
  }

  /** The number of isspace characters in `s`. */
  function SpaceCount(s: string): nat {
    if s == [] then 0 else (if IsSpace(s[0]) then 1 else 0) + SpaceCount(s[1..])
  }

  /** Dropping a prefix never adds spaces. */
  lemma {:induction false} SpaceCountDrop(s: string, k: nat)
    requires k <= |s|
    ensures SpaceCount(s[k..]) <= SpaceCount(s)
  {
    if k > 0 {
      SpaceCountDrop(s[1..], k - 1);
      assert s[1..][k - 1..] == s[k..];
    }
  }

  /** Byte `i` of the C string holding `text`; at `|text|` it is the terminator. */
  function ByteAt(text: string, i: nat): char {
    if i < |text| then text[i] else '\0'
  }

  /** Where wc_init's counting loop stops: a negative `size` skips it. */
  function LoopEnd(size: int): (i: nat)
    ensures size >= 0 ==> i == size
    ensures size < 0 ==> i == 0
  {
    if size < 0 then 0 else size
  }

  /**
   * wc_init's tableSize: twice the number of isspace bytes among the first
   * `size`, plus one more word when the byte where the loop stops is not a
   * space.
   */
  function TableSize(text: string, size: int): (n: nat)
    requires size <= |text|
    ensures n % 2 == 0
    ensures ByteAt(text, LoopEnd(size)) != ' ' ==> n >= 2
  {
    var i := LoopEnd(size);
    2 * (SpaceCount(text[..i]) + if ByteAt(text, i) != ' ' then 1 else 0)
  }

  /** The first NUL at or after `i`, or `|s|`. */
  function NulFrom(s: string, i: nat): (k: nat)
    requires i <= |s|
    ensures i <= k <= |s|
    ensures forall j :: i <= j < k ==> s[j] != '\0'
    ensures k == |s| || s[k] == '\0'
    decreases |s| - i
  {
    if i == |s| || s[i] == '\0' then i else NulFrom(s, i + 1)
  }

  /** The C string that strdup copies out of `text`: all before the first NUL. */
  function CString(text: string): (r: string)
    ensures r <= text
    ensures forall i :: 0 <= i < |r| ==> r[i] != '\0'
    ensures |r| == |text| || text[|r|] == '\0'
  {
    text[..NulFrom(text, 0)]
  }

  /** The first index at or after `i` that is not a delimiter, or `|s|`. */
  function SkipFrom(s: string, i: nat): (k: nat)
    requires i <= |s|
    ensures i <= k <= |s|
    ensures forall j :: i <= j < k ==> IsDelim(s[j])
    ensures k == |s| || !IsDelim(s[k])
    decreases |s| - i
  {
    if i == |s| || !IsDelim(s[i]) then i else SkipFrom(s, i + 1)
  }

  /** The first index at or after `i` that is a delimiter, or `|s|`. */
  function RunEnd(s: string, i: nat): (e: nat)
    requires i <= |s|
    ensures i <= e <= |s|
    ensures forall j :: i <= j < e ==> !IsDelim(s[j])
    ensures e == |s| || IsDelim(s[e])
    decreases |s| - i
  {
    if i == |s| || IsDelim(s[i]) then i else RunEnd(s, i + 1)
  }

  /**
   * One strtok call: skip the leading delimiters, then return the run of
   * non-delimiters that follows and the text after the delimiter that ended
   * it (strtok overwrites that delimiter and resumes behind it), or None
   * when only delimiters are left.
   */
  function NextToken(s: string): (r: Option<(string, string)>)
    ensures r.None? <==> forall i :: 0 <= i < |s| ==> IsDelim(s[i])
    ensures r.Some? ==> IsWord(r.value.0) && |r.value.1| < |s|
  {
    var k := SkipFrom(s, 0);
    if k == |s| then None
    else
      var e := RunEnd(s, k);
      Some((s[k..e], if e < |s| then s[e + 1..] else []))
  }

  /**
   * The token is the run of non-delimiters that starts after the leading
   * delimiters (at `k`) and ends at the next delimiter or the end of the
   * string (at `e`), and the scan resumes just past that delimiter.
   */
  lemma NextTokenIsFirstRun(s: string, k: nat, e: nat)
    requires k < |s| && k <= e <= |s|
    requires forall i :: 0 <= i < k ==> IsDelim(s[i])
    requires !IsDelim(s[k])
    requires forall i :: k <= i < e ==> !IsDelim(s[i])
    requires e == |s| || IsDelim(s[e])
    ensures NextToken(s) == Some((s[k..e], if e < |s| then s[e + 1..] else []))
  {
    var k0 := SkipFrom(s, 0);
    assert k0 == k;
    var e0 := RunEnd(s, k);
    assert e0 == e;
  }

  /** The tokens strtok returns for `s`, in order. */
  function Tokens(s: string): (ts: seq<string>)
    ensures forall i :: 0 <= i < |ts| ==> IsWord(ts[i])
    decreases |s|
  {
    match NextToken(s)
    case None => []
    case Some((token, rest)) => [token] + Tokens(rest)
  }

  /** Words joined by single spaces. */
  function Unwords(ws: seq<string>): string {
    if ws == [] then []
    else if |ws| == 1 then ws[0]
    else ws[0] + [' '] + Unwords(ws[1..])
  }

  /**
   * After any run of delimiters, a word followed by nothing or by a
   * delimiter is the next token, and the scan resumes behind that delimiter.
   */
  lemma NextTokenOfWord(lead: string, w: string, tail: string)
    requires forall i :: 0 <= i < |lead| ==> IsDelim(lead[i])
    requires IsWord(w) && (tail == [] || IsDelim(tail[0]))
    ensures NextToken(lead + w + tail) == Some((w, if tail == [] then [] else tail[1..]))
  {
    var s := lead + w + tail;
    var k, m := |lead|, |lead| + |w|;
    forall i | 0 <= i < k ensures IsDelim(s[i]) { assert s[i] == lead[i]; }
    forall i | k <= i < m ensures !IsDelim(s[i]) { assert s[i] == w[i - k]; }
    assert s[k] == w[0];
    assert m < |s| ==> s[m] == tail[0];
    NextTokenIsFirstRun(s, k, m);
    assert s[k..m] == w;
    assert m < |s| ==> s[m + 1..] == tail[1..];
  }

  /** Tokenising words joined by spaces gives the words back. */
  lemma {:induction false} TokensOfUnwords(ws: seq<string>)
    requires forall i :: 0 <= i < |ws| ==> IsWord(ws[i])
    ensures Tokens(Unwords(ws)) == ws
  {
    if ws == [] {
    } else if |ws| == 1 {
      NextTokenOfWord([], ws[0], []);
      assert [] + ws[0] + [] == ws[0];
      assert NextToken([]) == None;
    } else {
      var tail := [' '] + Unwords(ws[1..]);
      assert ws[0] + [' '] + Unwords(ws[1..]) == [] + ws[0] + tail;
      NextTokenOfWord([], ws[0], tail);
      assert tail[1..] == Unwords(ws[1..]);
      TokensOfUnwords(ws[1..]);
      assert ws == [ws[0]] + ws[1..];
    }
  }

  /** There is at most one more token than there are spaces. */
  lemma {:induction false} TokensBound(s: string)
    ensures |Tokens(s)| <= SpaceCount(s) + 1
    decreases |s|
  {
    if NextToken(s).Some? {
      var e := RunEnd(s, SkipFrom(s, 0));
      if e < |s| {
        var rest := s[e + 1..];
        TokensBound(rest);
        SpaceCountDrop(s, e);
        assert s[e..][1..] == rest;
        assert SpaceCount(s[e..]) == 1 + SpaceCount(rest);
      }
    }
  }

  /**
   * For a whole string the table has at least two buckets and at least two
   * per token: the load factor stays at most one half.
   */
  lemma TableSizeCoversTokens(text: string)
    ensures TableSize(text, |text|) >= 2
    ensures TableSize(text, |text|) >= 2 * |Tokens(text)|
  {
    TokensBound(text);
    assert text[..|text|] == text;
  }

  /** A word node of a chain. */
  datatype Node = Node(word: string, occurrence: int)

  /** wc->hashTable: one chain per bucket. */
  type Table = seq<seq<Node>>

  predicate IsInt32(x: int) {
    IntMin <= x <= IntMax
  }

  /**
   * The hash accumulator of myHashFunction (its loop) as an abstract
   * function of the word: a 32-bit value other than INT_MIN.
   */
  ghost predicate GoodKey(key: string -> int) {
    forall w :: IsInt32(key(w)) && key(w) != IntMin
  }

  /** Two's-complement negation of a 32-bit int: INT_MIN is its own negation. */
  function Negate32(x: int): (r: int)
    requires IsInt32(x)
    ensures IsInt32(r)
    ensures x != IntMin ==> r == -x
  {
    if x == IntMin then IntMin else -x
  }

  /** C's `%` for a positive divisor: the remainder takes the sign of the dividend. */
  function CRem(a: int, b: int): (r: int)
    requires b > 0
    ensures a >= 0 ==> 0 <= r < b
    ensures a < 0 ==> -b < r <= 0
  {
    if a >= 0 then a % b else -((-a) % b)
  }

  /**
   * The end of myHashFunction: flip a negative accumulator positive, then
   * reduce it modulo tableSize.
   */
  function Bucket(h: int, tableSize: int): (r: int)
    requires IsInt32(h) && tableSize > 0
    ensures h != IntMin ==> 0 <= r < tableSize
  {
    CRem(if h < 0 then Negate32(h) else h, tableSize)
  }

  /** INT_MIN survives the sign flip and reduces to a negative index. */
  lemma BucketOfIntMin()
    ensures Bucket(IntMin, 3) == -2
  {
  }

  /** The bucket of word `w`. */
  function Index(key: string -> int, w: string, tableSize: int): (r: int)
    requires GoodKey(key) && tableSize > 0
    ensures 0 <= r < tableSize
  {
    Bucket(key(w), tableSize)
  }

  /** The position of the node for `w` in a chain, if any. */
  function Find(chain: seq<Node>, w: string): (r: Option<nat>)
    ensures r.None? <==> forall i :: 0 <= i < |chain| ==> chain[i].word != w
    ensures r.Some? ==> r.value < |chain| && chain[r.value].word == w
    ensures r.Some? ==> forall i :: 0 <= i < r.value ==> chain[i].word != w
  {
    if chain == [] then None
    else if chain[0].word == w then Some(0)
    else
      match Find(chain[1..], w)
      case None => None
      case Some(i) => Some(i + 1)
  }

  /** A chain of a valid table: every word counted at least once, none twice. */
  predicate ChainValid(chain: seq<Node>) {
    && (forall i :: 0 <= i < |chain| ==> chain[i].occurrence >= 1)
    && (forall i, j :: 0 <= i < j < |chain| ==> chain[i].word != chain[j].word)
  }

  /**
   * The table invariant: every chain is valid and every node sits in the
   * bucket of its word.
   */
  ghost predicate Valid(t: Table, key: string -> int) {
    && |t| > 0 && GoodKey(key)
    && forall b :: 0 <= b < |t| ==>
         && ChainValid(t[b])
         && forall i :: 0 <= i < |t[b]| ==> Index(key, t[b][i].word, |t|) == b
  }

  /** No word has two nodes anywhere in a valid table. */
  lemma WordsUnique(t: Table, key: string -> int, b1: int, i1: int, b2: int, i2: int)
    requires Valid(t, key)
    requires 0 <= b1 < |t| && 0 <= i1 < |t[b1]|
    requires 0 <= b2 < |t| && 0 <= i2 < |t[b2]|
    requires t[b1][i1].word == t[b2][i2].word
    ensures b1 == b2 && i1 == i2
  {
  }

  /** How often a chain has counted `w`: its node's occurrence, or 0 without a node. */
  function ChainCount(chain: seq<Node>, w: string): int {
    match Find(chain, w)
    case None => 0
    case Some(i) => chain[i].occurrence
  }

  /** How often the table has counted `w`. */
  function Occurrences(t: Table, key: string -> int, w: string): int
    requires |t| > 0 && GoodKey(key)
  {
    ChainCount(t[Index(key, w, |t|)], w)
  }

  /** Chains with the same words in the same order find every word at the same place. */
  lemma FindSameWords(c1: seq<Node>, c2: seq<Node>, v: string)
    requires |c1| == |c2| && forall k :: 0 <= k < |c1| ==> c1[k].word == c2[k].word
    ensures Find(c1, v) == Find(c2, v)
  {
    match Find(c1, v)
    case None =>
    case Some(a) =>
      assert c2[a].word == v;
  }

  /** Appending a node for another word does not move any word's node. */
  lemma FindAppend(chain: seq<Node>, n: Node, v: string)
    requires n.word != v
    ensures Find(chain + [n], v) == Find(chain, v)
  {
    var r := chain + [n];
    match Find(chain, v)
    case None =>
    case Some(a) =>
      assert r[a].word == v;
  }

  /** Counting a word already in the chain moves no word's node and keeps the chain valid. */
  lemma BumpKeepsFinds(chain: seq<Node>, w: string, i: nat)
    requires ChainValid(chain) && Find(chain, w) == Some(i)
    ensures var r := chain[i := Node(w, chain[i].occurrence + 1)];
      && ChainValid(r)
      && forall v :: Find(r, v) == Find(chain, v)
  {
    var r := chain[i := Node(w, chain[i].occurrence + 1)];
    forall v ensures Find(r, v) == Find(chain, v) {
      FindSameWords(r, chain, v);
    }
  }

  /** Appending a node for a new word moves no other word's node and keeps the chain valid. */
  lemma AppendKeepsFinds(chain: seq<Node>, w: string)
    requires ChainValid(chain) && Find(chain, w).None?
    ensures var r := chain + [Node(w, 1)];
      && ChainValid(r)
      && Find(r, w) == Some(|chain|)
      && forall v :: v != w ==> Find(r, v) == Find(chain, v)
  {
    var r := chain + [Node(w, 1)];
    forall v | v != w ensures Find(r, v) == Find(chain, v) {
      FindAppend(chain, Node(w, 1), v);
    }
    assert forall k :: 0 <= k < |chain| ==> r[k] == chain[k];
    assert r[|chain|].word == w;
  }

  /**
   * insertNode within the word's bucket: a node already holding the word
   * counts it once more; otherwise a node with occurrence 1 becomes the
   * chain's head when the chain is empty, or is appended at its end.
   */
  function InsertIntoChain(chain: seq<Node>, w: string): (r: seq<Node>)
    requires ChainValid(chain)
    ensures ChainValid(r)
    ensures forall i :: 0 <= i < |r| ==> r[i].word == w || (i < |chain| && r[i] == chain[i])
    ensures ChainCount(r, w) == ChainCount(chain, w) + 1
    ensures forall v :: v != w ==> Find(r, v) == Find(chain, v) && ChainCount(r, v) == ChainCount(chain, v)
    ensures match Find(chain, w)
      case Some(i) => r == chain[i := Node(w, chain[i].occurrence + 1)]
      case None => r == chain + [Node(w, 1)] && (chain == [] ==> r == [Node(w, 1)])
  {
    if chain == [] then
      [Node(w, 1)]
    else
      match Find(chain, w)
      case Some(i) =>
        BumpKeepsFinds(chain, w, i);
        chain[i := chain[i].(occurrence := chain[i].occurrence + 1)]
      case None =>
        AppendKeepsFinds(chain, w);
        chain + [Node(w, 1)]
  }

  /**
   * insertNode: count `w` once more in its bucket; every other bucket and
   * every other word's count stays as it was.
   */
  function InsertNode(t: Table, key: string -> int, w: string): (r: Table)
    requires Valid(t, key)
    ensures Valid(r, key) && |r| == |t|
    ensures Occurrences(r, key, w) == Occurrences(t, key, w) + 1
    ensures forall v :: v != w ==> Occurrences(r, key, v) == Occurrences(t, key, v)
    ensures forall c :: 0 <= c < |t| && c != Index(key, w, |t|) ==> r[c] == t[c]
    ensures r[Index(key, w, |t|)] == InsertIntoChain(t[Index(key, w, |t|)], w)
  {
    var b := Index(key, w, |t|);
    var r := t[b := InsertIntoChain(t[b], w)];
    assert forall i :: 0 <= i < |r[b]| ==> Index(key, r[b][i].word, |t|) == b;
    r
  }

  /** One strtok step of the token list. */
  lemma TokensStep(s: string)
    requires NextToken(s).Some?
    ensures Tokens(s) == [NextToken(s).value.0] + Tokens(NextToken(s).value.1)
  {
  }

  /**
   * The state of wc_init's loop: the tokens already inserted, followed by
   * those strtok has yet to return from `rest`, are all the tokens, and the
   * table counts exactly the inserted ones.
   */
  ghost predicate Counted(text: string, key: string -> int, t: Table, done: seq<string>, rest: string) {
    && Valid(t, key)
    && Tokens(text) == done + Tokens(rest)
    && forall w :: Occurrences(t, key, w) == multiset(done)[w]
  }

  /** The inserted tokens grow by the one strtok returns next. */
  lemma TokensNext(text: string, done: seq<string>, rest: string)
    requires Tokens(text) == done + Tokens(rest) && NextToken(rest).Some?
    ensures Tokens(text) == (done + [NextToken(rest).value.0]) + Tokens(NextToken(rest).value.1)
  {
    TokensStep(rest);
  }

  /** Inserting one more token keeps every count equal to its multiplicity. */
  lemma CountsNext(t: Table, key: string -> int, done: seq<string>, word: string)
    requires Valid(t, key)
    requires forall w :: Occurrences(t, key, w) == multiset(done)[w]
    ensures forall w :: Occurrences(InsertNode(t, key, word), key, w) == multiset(done + [word])[w]
  {
    assert multiset(done + [word]) == multiset(done) + multiset{word};
  }

  /** Before the first strtok call an empty table has counted nothing. */
  lemma CountedStart(text: string, key: string -> int, n: nat)
    requires GoodKey(key) && n > 0
    ensures Counted(text, key, seq(n, _ => []), [], text)
  {
    var t: Table := seq(n, _ => []);
    assert [] + Tokens(text) == Tokens(text);
    forall w ensures Occurrences(t, key, w) == multiset([])[w] {
      assert t[Index(key, w, n)] == [];
    }
  }

  /** Inserting the next token keeps the loop state. */
  lemma CountNext(text: string, key: string -> int, t: Table, done: seq<string>,
                  rest: string, word: string, after: string)
    requires Counted(text, key, t, done, rest) && NextToken(rest) == Some((word, after))
    ensures |InsertNode(t, key, word)| == |t|
    ensures Counted(text, key, InsertNode(t, key, word), done + [word], after)
  {
    TokensNext(text, done, rest);
    CountsNext(t, key, done, word);
  }

  /** Once strtok has nothing left, every token has been counted. */
  lemma CountedAll(text: string, key: string -> int, t: Table, done: seq<string>, rest: string)
    requires Counted(text, key, t, done, rest) && NextToken(rest).None?
    ensures Valid(t, key)
    ensures forall w :: Occurrences(t, key, w) == multiset(Tokens(text))[w]
  {
    assert Tokens(rest) == [];
    assert done == Tokens(text);
  }

  /** strtok never sees past a NUL: "a\0b" yields the single token "a". */
  lemma TokensStopAtNul()
    ensures Tokens(CString("a\0b")) == ["a"]
  {
    var text := "a\0b";
    assert NulFrom(text, 1) == 1;
    assert CString(text) == "a";
    NextTokenOfWord([], "a", []);
    assert [] + "a" + [] == "a";
  }

  /**
   * wc_init: size the table on the first `size` bytes, then feed every
   * strtok token of the strdup copy, which ends at the first NUL, to
   * insertNode. Afterwards each word's occurrence is the number of times it
   * appears among those tokens. A size that gives no bucket is excluded:
   * myHashFunction would divide by zero.
   */
  method WcInit(text: string, size: int, key: string -> int) returns (t: Table)
    requires GoodKey(key)
    requires size <= |text| && TableSize(text, size) > 0
    ensures |t| == TableSize(text, size)
    ensures Valid(t, key)
    ensures forall w :: Occurrences(t, key, w) == multiset(Tokens(CString(text)))[w]
  {
    var buckets := TableSize(text, size);
    t := seq(buckets, _ => []);
    var copy := CString(text);
    var rest := copy;
    ghost var done: seq<string> := [];
    CountedStart(copy, key, buckets);
    var token := NextToken(rest);
    while token.Some?
      invariant |t| == buckets && Counted(copy, key, t, done, rest)
      invariant token == NextToken(rest)
      decreases |rest|
    {
      var word, after := token.value.0, token.value.1;
      CountNext(copy, key, t, done, rest, word, after);
      t := InsertNode(t, key, word);
      done := done + [word];
      rest := after;
      token := NextToken(rest);
    }
    CountedAll(copy, key, t, done, rest);
  }
}
